=== FILE: README.md ===
# Socket-diagnostics dispatch core, modelled in Dafny

This project models the dispatch core of the kernel's socket-diagnostics
netlink family (`net/core/sock_diag.c`). The model has four parts:

- **Socket cookie** (`cookie.dfy`, module `Cookie`). A socket gets a 64-bit cookie lazily, from a counter kept per network namespace. Once non-zero, the cookie never changes. Clients compare against it and export it as two 32-bit halves. The pair `INET_DIAG_NOCOOKIE, INET_DIAG_NOCOOKIE` is a wildcard.
- **Handler registry** (`registry.dfy`, module `Registry`). This is the table of `AF_MAX` optional per-family handlers plus the single legacy compat handler (`inet_rcv_compat`), with their register and unregister operations.
- **Request routing** (`dispatch.dfy`, module `Dispatch`). This covers the message switch `sock_diag_rcv_msg`, the per-family command `__sock_diag_cmd` with its handler lookup, and the destroy gate `sock_diag_destroy`.
- **Shared definitions** (`kernel.dfy`, module `Kernel`): bounded integer types, errno values and `Option`, where `None` stands for a NULL pointer.

Each operation is a pure function from the registry or cookie state to a
result and a new state, and each operation is treated as one atomic step.
In the source, the cookie functions and `sock_diag_destroy` take no mutex.
The NULL tests at `net/core/sock_diag.c` lines 124 and 170, and the module
request that follows them, run before the table mutex is taken. Registration
does not take the request mutex. None of this interleaving is modelled (see
"Left out").

Handlers, compat functions and protocols are given an identity. A handler also has a
`hasDestroy` flag and a protocol a `hasDiagDestroy` flag. What `dump`, `destroy`,
`inet_rcv_compat` and `diag_destroy` actually do is opaque. Dispatch therefore returns an
`Outcome` naming the call it makes, and the kernel returns that call's result unchanged.
`capable(CAP_NET_ADMIN)` is a boolean input.

`request_module` is modelled as a `Loader`: an arbitrary function from
the registry state and a family to a new state. It is applied only where
the source calls it, which is when the slot being looked up is empty.

Constants come from headers that are not part of this model. Their values are
those of this kernel's headers:

- `AF_MAX = 40` and `AF_INET = 2`;
- `TCPDIAG_GETSOCK = 18`, `DCCPDIAG_GETSOCK = 19`, `SOCK_DIAG_BY_FAMILY = 20` and `SOCK_DESTROY_BACKPORT = 21`;
- `INET_DIAG_NOCOOKIE = 0xFFFFFFFF`;
- `sizeof(struct sock_diag_req) = 2`, because the struct holds two `__u8` fields.

## Model

| member | source | states |
|---|---|---|
| Cookie.SockGenCookie | net/core/sock_diag.c:17-27 | The result is non-zero and is the cookie the socket then holds. A set cookie is returned with socket and counter unchanged. Otherwise the counter's new value is installed, and the retry loop ends after at most two passes, even when the counter wraps to 0. |
| Cookie.GenCookie | net/core/sock_diag.c:17-27 | Sequential meaning of the loop. The cookie is non-zero and installed, and a set cookie is kept. A fresh cookie equals the counter afterwards, and it is `counter + 1` unless the counter wraps. |
| Cookie.IncReturn | net/core/sock_diag.c:24 | `atomic64_inc_return` gives `n + 1`, except that the largest 64-bit value wraps to 0. |
| Cookie.FreshCookie | net/core/sock_diag.c:24-25 | The value installed into an unset socket is never 0. It is `counter + 1`, or 1 when the 64-bit increment wraps. |
| Cookie.GenCookieStable | net/core/sock_diag.c:20-23 | A second call on the same socket returns the same cookie and changes nothing. |
| Cookie.GenCookieFor | net/core/sock_diag.c:17-27 | Generating a cookie for one socket of a namespace gives that socket a non-zero cookie. A cookie that is already set is returned with the namespace unchanged. A fresh cookie equals the counter's new value. Every other socket is left unchanged. While the 64-bit counter does not wrap, the shared counter advances by at most one. When it wraps, an unset socket gets cookie 1 and the counter ends at 1. |
| Cookie.GenCookiesFor | net/core/sock_diag.c:17-27 | After a series of cookie requests, every requested socket has a non-zero cookie, every cookie that was already set is unchanged, and sockets not requested are untouched. |
| Cookie.GenCookiesKeepUnique | net/core/sock_diag.c:17-27 | No series of cookie requests makes two sockets of one namespace share a cookie, as long as the counter does not wrap. |
| Cookie.UnsetNamespaceIsUnique | net/core/sock_diag.c:17-27 | A namespace with a zero counter whose sockets have no cookie yet satisfies the uniqueness invariant. |
| Cookie.GenCookieKeepsUnique | net/core/sock_diag.c:24-25 | Cookies drawn from one counter are distinct from every other socket's cookie. Uniqueness is preserved as long as the counter does not wrap. |
| Cookie.WrappedCounterReissuesOne | net/core/sock_diag.c:22-25 | After the counter wraps, the next unset socket gets cookie 1 again. |
| Cookie.Join | net/core/sock_diag.c:48-49 | Joining a pair as `low + high * 2^32` gives a value whose low and high 32-bit halves are that pair. |
| Cookie.Low | net/core/sock_diag.c:37 | `(u32)res` keeps the low 32 bits: a value below 2^32 is unchanged, and the result differs from `res` by a multiple of 2^32. |
| Cookie.High | net/core/sock_diag.c:48-49 | `(u32)(res >> 32)` is the high half `hi`, the one with `hi * 2^32 <= res < (hi + 1) * 2^32`. |
| Cookie.SplitJoin | net/core/sock_diag.c:37 | The halves `(u32)res` and `(u32)(res >> 32)` join back to `res`. |
| Cookie.HalvesMatchIffJoinMatches | net/core/sock_diag.c:37 | Both halves match a pair exactly when the pair joins to the cookie. |
| Cookie.CheckCookie | net/core/sock_diag.c:29-41 | The result is 0 or `-ESTALE`. The wildcard pair gives 0 and leaves the socket untouched, whatever its cookie. Any other pair assigns a cookie if none is set. It gives `-ESTALE` exactly when the pair does not join to the socket's cookie. |
| Cookie.SaveCookie | net/core/sock_diag.c:44-50 | Saving assigns a cookie if none is set. The saved halves join to the socket's non-zero cookie. |
| Cookie.SaveThenCheck | net/core/sock_diag.c:29-50 | Round trip: checking the pair just saved returns 0 and changes nothing. |
| Cookie.OtherCookieIsStale | net/core/sock_diag.c:36-38 | A saved pair given to a socket holding a different cookie gives `-ESTALE`, unless the pair is the wildcard. This is how a recycled socket is detected. |
| Registry.InitialSlotsMatchFamilies | net/core/sock_diag.c:13 | At boot every slot is NULL, so the invariant that each handler sits in its own family's slot holds from the start. |
| Registry.Register | net/core/sock_diag.c:90-105 | `family >= AF_MAX` gives `-EINVAL` and an occupied slot gives `-EBUSY`, both without change. Success happens exactly when the slot was empty. It stores the handler in that slot only, and the compat slot is untouched. |
| Registry.Unregister | net/core/sock_diag.c:108-119 | Requires the slot to hold exactly this handler (the `BUG_ON`). An out-of-range family is a no-op. Otherwise only that slot becomes empty. |
| Registry.RegisterCompat | net/core/sock_diag.c:74-79 | The compat slot is overwritten without a busy check, and the table is untouched. |
| Registry.UnregisterCompat | net/core/sock_diag.c:82-87 | The compat slot is cleared and the table is untouched. |
| Registry.RegisterThenUnregister | net/core/sock_diag.c:90-119 | A successful register followed by unregistering the same handler restores the previous state. |
| Registry.UnregisterThenRegister | net/core/sock_diag.c:90-119 | Unregistering a registered handler and registering it again succeeds and restores the state. |
| Registry.SecondRegisterIsBusy | net/core/sock_diag.c:98-101 | A second handler for a registered family gets `-EBUSY`, and the first handler stays. |
| Registry.OperationsKeepSlotsMatchFamilies | net/core/sock_diag.c:74-119 | Every register and unregister operation keeps each handler in the slot of its own family. |
| Registry.UnregisterCompatIgnoresArgument | net/core/sock_diag.c:82-87 | Unlike per-family unregistration, unregistering the compat handler does not depend on which handler is named. |
| Registry.LastCompatRegisterWins | net/core/sock_diag.c:74-79 | Of two compat registrations, the last one wins. |
| Dispatch.LockHandler | net/core/sock_diag.c:122-130 | An occupied slot is returned without any module request. An empty slot triggers the module request first, and the result is whatever the slot holds afterwards. |
| Dispatch.DiagCmd | net/core/sock_diag.c:137-161 | A short payload or bad family gives `-EINVAL` with no lookup. An empty slot after lookup gives `-ENOENT`. `dump` is reached only for `SOCK_DIAG_BY_FAMILY`. `destroy` is reached only for `SOCK_DESTROY_BACKPORT` and a handler that has it. In both cases the handler is the one in the slot. |
| Dispatch.CompatRcv | net/core/sock_diag.c:168-181 | The `AF_INET` module is requested only when no compat handler is set. The compat handler is then called if present; otherwise the result is `-EOPNOTSUPP`. |
| Dispatch.RcvMsg | net/core/sock_diag.c:163-188 | Unknown types give `-EINVAL` with no state change. The only errors dispatch produces itself are `-EINVAL`, `-ENOENT` and `-EOPNOTSUPP`. The only state change is a module load. |
| Dispatch.UnknownTypeIgnoresRegistry | net/core/sock_diag.c:185-186 | An unknown message type gives `-EINVAL` whatever the registry or loader, and no module is requested. |
| Dispatch.MalformedRejectedBeforeLookup | net/core/sock_diag.c:143-147 | A short payload or out-of-range family gives `-EINVAL` before any lookup, independent of registry and loader. |
| Dispatch.InvalidIffMalformed | net/core/sock_diag.c:143-147 | The header checks (`WellFormed`): a family command gets `-EINVAL` exactly when its payload is shorter than `struct sock_diag_req` or its family is at least `AF_MAX`. |
| Dispatch.EmptySlotIsNoEnt | net/core/sock_diag.c:149-151 | A well-formed family command whose slot is still empty after the module request gives `-ENOENT`. |
| Dispatch.DumpReachedIff | net/core/sock_diag.c:137-184 | `dump` of `h` is reached exactly for a well-formed `SOCK_DIAG_BY_FAMILY` whose looked-up slot holds `h`. |
| Dispatch.DestroyReachedIff | net/core/sock_diag.c:137-184 | `destroy` of `h` is reached exactly for a well-formed `SOCK_DESTROY_BACKPORT` whose looked-up slot holds `h` and `h` has `destroy`. |
| Dispatch.DestroyUnsupported | net/core/sock_diag.c:154-157 | A destroy request to a handler without `destroy` gives `-EOPNOTSUPP`. |
| Dispatch.CompatRouting | net/core/sock_diag.c:168-181 | A compat handler that is already set is called for both legacy types, with no module request. With none set, the `AF_INET` module is requested. The answer is `-EOPNOTSUPP` exactly when the compat slot is still empty afterwards, and otherwise the handler called is the one in the slot. |
| Dispatch.CompatIgnoresTable | net/core/sock_diag.c:168-181 | The legacy path never reads the family table or the request's family and length. Two states whose compat slots agree, after the module request when one is made, give the same outcome. |
| Dispatch.DispatchReachesOwnFamily | net/core/sock_diag.c:98-155 | In a registry that keeps handlers in their own slots, a handler reached by dispatch serves the requested family. |
| Dispatch.SockDiagDestroy | net/core/sock_diag.c:199-208 | Without `CAP_NET_ADMIN` the result is `-EPERM`. With it, a protocol lacking `diag_destroy` gives `-EOPNOTSUPP`. Otherwise `diag_destroy(sk, err)` is called with the caller's error. |
| Dispatch.PermissionCheckedFirst | net/core/sock_diag.c:201-205 | An unprivileged caller gets `-EPERM` whatever the protocol supports. |

## Left out

- Mutexes (`sock_diag_table_mutex`, `sock_diag_mutex`): each operation is one atomic step. Holding the table lock across a handler's call is not modelled. Nor is the unlocked NULL test before `request_module` (lines 124 and 170), whose answer can be out of date by the time the table mutex is taken. Nor are registrations that run concurrently with dispatch, since they do not take the request mutex.
- Atomic64 races in `sock_gen_cookie`: only the sequential meaning of the loop is modelled. A concurrent winner of the compare-and-exchange is not modelled.
- Cookie.GenCookiesKeepUnique: requires that the counter does not wrap during the series. After 2^64 increments the source hands out 1 again.
- Cookie.GenCookieKeepsUnique: requires that the 64-bit counter does not wrap. After 2^64 increments the source hands out 1 again, as `Cookie.WrappedCounterReissuesOne` shows.
- `request_module`: an abstract `Loader` step. Which module gets loaded, and what its init registers, is not modelled.
- Results of `dump`, `destroy`, `inet_rcv_compat`, `diag_destroy` and `capable()`: these are opaque. Dispatch returns which call it makes, not the value that call returns.
- `sock_diag_put_meminfo`: its size check lives inside the `__RTA_PUT` macro. Its slot indices are `SK_MEMINFO_*` header constants. Neither is part of this model.
- `sock_diag_rcv`, `sock_diag_init` and `sock_diag_exit`: netlink transport and module lifecycle plumbing.
- Payload length: `nlmsg_len(nlh)` is modelled as a natural number. `netlink_rcv_skb` only passes messages at least as long as the netlink header, so it cannot be negative here.

=== FILE: cookie.dfy ===
/**
 The socket cookie: a lazily assigned, non-zero 64-bit identifier drawn from a
 per-namespace counter (`sock_gen_cookie`), and its comparison against and
 export as a pair of 32-bit halves (`sock_diag_check_cookie`,
 `sock_diag_save_cookie`). The atomics are read as plain sequential steps.
 */
module Cookie {
  import opened Kernel

  /** The candidate half that, in both positions, means "match any socket". */
  const INET_DIAG_NOCOOKIE: u32 := U32_MAX

  /** `sk->sk_cookie` of one socket, together with `cookie_gen` of its namespace. */
  datatype CookieState = CookieState(cookie: u64, counter: u64)

  /** What `sock_gen_cookie` returns, and the socket/counter state it leaves. */
  datatype Gen = Gen(res: u64, after: CookieState)

  /** `atomic64_inc_return`: the incremented counter, wrapping at 2^64. */
  function IncReturn(n: u64): (r: u64)
    ensures n < U64_MAX ==> r == n + 1
    ensures n == U64_MAX ==> r == 0
  {
    (n + 1) % TWO_64
  }

  /**
   The value `sock_gen_cookie` installs into a socket whose cookie is unset:
   the next counter value, except that a counter wrapping to the reserved 0
   is incremented once more.
   */
  function FreshCookie(counter: u64): (c: u64)
    ensures c != 0
    ensures counter < U64_MAX ==> c == counter + 1
    ensures counter == U64_MAX ==> c == 1
  {
    if IncReturn(counter) != 0 then IncReturn(counter) else IncReturn(IncReturn(counter))
  }

  /**
   Sequential meaning of `sock_gen_cookie`: a set cookie is returned untouched;
   an unset one becomes a fresh counter value, which the counter keeps.
   */
  function GenCookie(st: CookieState): (g: Gen)
    ensures g.res != 0
    ensures g.after.cookie == g.res
    ensures st.cookie != 0 ==> g == Gen(st.cookie, st)
    ensures st.cookie == 0 ==> g.after.counter == g.res
    ensures st.cookie == 0 && st.counter < U64_MAX ==> g.res == st.counter + 1
  {
    if st.cookie != 0 then Gen(st.cookie, st)
    else
      var v := FreshCookie(st.counter);
      Gen(v, CookieState(v, v))
  }

  /** Loop iterations `sock_gen_cookie` still needs from state `st`. */
  function Retries(st: CookieState): nat
  {
    if st.cookie != 0 then 0
    else if st.counter < U64_MAX then 1
    else 2
  }

  /**
   `sock_gen_cookie` as the retry loop it is written as: read the cookie; while
   it is zero, increment the namespace counter and install the new value if the
   cookie is still zero. The loop runs at most twice, the second time only when
   the counter wrapped to zero.
   */
  method SockGenCookie(st: CookieState) returns (res: u64, st': CookieState)
    ensures res != 0 && st'.cookie == res
    ensures st.cookie != 0 ==> res == st.cookie && st' == st
    ensures st.cookie == 0 ==> st'.counter == res
    ensures Gen(res, st') == GenCookie(st)
  {
    var cur := st;
    while cur.cookie == 0
      invariant GenCookie(cur) == GenCookie(st)
      decreases Retries(cur)
    {
      var next := IncReturn(cur.counter);
      cur := cur.(counter := next);
      if cur.cookie == 0 {
        cur := cur.(cookie := next);
      }
    }
    res, st' := cur.cookie, cur;
  }

  /** A second `sock_gen_cookie` on the same socket returns the same cookie and changes nothing. */
  lemma GenCookieStable(st: CookieState)
    ensures GenCookie(GenCookie(st).after) == GenCookie(st)
  {
  }

  /** `(u32)res`: the low 32 bits. */
  function Low(c: u64): (lo: u32)
    ensures c < TWO_32 ==> lo == c
    ensures (c - lo) % TWO_32 == 0
  {
    c % TWO_32
  }

  /** `(u32)(res >> 32)`: the high 32 bits. */
  function High(c: u64): (hi: u32)
    ensures hi * TWO_32 <= c < (hi + 1) * TWO_32
  {
    c / TWO_32
  }

  /** The 64-bit value a client rebuilds from a saved pair: `low + high * 2^32`. */
  function Join(lo: u32, hi: u32): (c: u64)
    ensures Low(c) == lo && High(c) == hi
  {
    lo + hi * TWO_32
  }

  /** Splitting a cookie into halves and joining them gives the cookie back. */
  lemma SplitJoin(c: u64)
    ensures Join(Low(c), High(c)) == c
  {
  }

  /** A pair of halves determines the 64-bit value: equal halves iff equal join. */
  lemma HalvesMatchIffJoinMatches(c: u64, lo: u32, hi: u32)
    ensures (Low(c) == lo && High(c) == hi) <==> Join(lo, hi) == c
  {
  }

  /** The wildcard pair accepted for any socket. */
  predicate IsNoCookie(lo: u32, hi: u32)
  {
    lo == INET_DIAG_NOCOOKIE && hi == INET_DIAG_NOCOOKIE
  }

  /** What `sock_diag_check_cookie` returns, and the state it leaves. */
  datatype Checked = Checked(ret: int, after: CookieState)

  /**
   `sock_diag_check_cookie`: the wildcard pair succeeds without touching the
   socket; any other pair (possibly after assigning the socket its cookie)
   succeeds exactly when it is the socket's cookie, and fails with `-ESTALE`
   otherwise.
   */
  function CheckCookie(st: CookieState, cookie0: u32, cookie1: u32): (c: Checked)
    ensures c.ret == 0 || c.ret == -ESTALE
    ensures IsNoCookie(cookie0, cookie1) ==> c == Checked(0, st)
    ensures !IsNoCookie(cookie0, cookie1) ==> c.after == GenCookie(st).after
    ensures !IsNoCookie(cookie0, cookie1) ==>
              (c.ret == -ESTALE <==> Join(cookie0, cookie1) != c.after.cookie)
  {
    if IsNoCookie(cookie0, cookie1) then Checked(0, st)
    else
      var g := GenCookie(st);
      HalvesMatchIffJoinMatches(g.res, cookie0, cookie1);
      if Low(g.res) != cookie0 || High(g.res) != cookie1 then Checked(-ESTALE, g.after)
      else Checked(0, g.after)
  }

  /** What `sock_diag_save_cookie` writes to `cookie[0]`, `cookie[1]`, and the state it leaves. */
  datatype Saved = Saved(cookie0: u32, cookie1: u32, after: CookieState)

  /**
   `sock_diag_save_cookie`: assigns the cookie if unset and exports it as its
   low and high halves, which join back to the socket's cookie.
   */
  function SaveCookie(st: CookieState): (s: Saved)
    ensures s.after == GenCookie(st).after
    ensures Join(s.cookie0, s.cookie1) == s.after.cookie
    ensures s.after.cookie != 0
  {
    var g := GenCookie(st);
    SplitJoin(g.res);
    Saved(Low(g.res), High(g.res), g.after)
  }

  /** Round trip: the pair saved for a socket is accepted by the check, which changes nothing. */
  lemma SaveThenCheck(st: CookieState)
    ensures var s := SaveCookie(st);
            CheckCookie(s.after, s.cookie0, s.cookie1) == Checked(0, s.after)
  {
  }

  /**
   Recycling detection: a pair saved from one cookie is refused with `-ESTALE`
   by a socket holding any other cookie, unless the pair is the wildcard.
   */
  lemma OtherCookieIsStale(st: CookieState, other: CookieState)
    requires other.cookie != 0
    requires other.cookie != SaveCookie(st).after.cookie
    ensures var s := SaveCookie(st);
            IsNoCookie(s.cookie0, s.cookie1) || CheckCookie(other, s.cookie0, s.cookie1).ret == -ESTALE
  {
  }

  /** The sockets of one namespace (their cookies) and the namespace's counter. */
  datatype Namespace = Namespace(cookies: seq<u64>, counter: u64)

  /** `sock_gen_cookie` on socket `i` of a namespace. */
  function GenCookieFor(ns: Namespace, i: nat): (r: (u64, Namespace))
    requires i < |ns.cookies|
    ensures |r.1.cookies| == |ns.cookies|
    ensures r.1.cookies[i] == r.0 != 0
    ensures forall j :: 0 <= j < |ns.cookies| && j != i ==> r.1.cookies[j] == ns.cookies[j]
    ensures ns.counter < U64_MAX ==> ns.counter <= r.1.counter <= ns.counter + 1
    ensures ns.cookies[i] != 0 ==> r == (ns.cookies[i], ns)
    ensures ns.cookies[i] == 0 ==> r.1.counter == r.0
    ensures ns.cookies[i] == 0 && ns.counter == U64_MAX ==> r.0 == r.1.counter == 1
  {
    var g := GenCookie(CookieState(ns.cookies[i], ns.counter));
    assert ns.cookies[i] != 0 ==> ns.cookies[i := g.res] == ns.cookies;
    (g.res, Namespace(ns.cookies[i := g.res], g.after.counter))
  }

  /**
   Every assigned cookie came from the counter (is at most its value), and no
   two sockets share a non-zero cookie.
   */
  ghost predicate UniqueCookies(ns: Namespace)
  {
    && (forall i :: 0 <= i < |ns.cookies| ==> ns.cookies[i] <= ns.counter)
    && (forall i, j :: 0 <= i < |ns.cookies| && 0 <= j < |ns.cookies| && i != j && ns.cookies[i] != 0
          ==> ns.cookies[i] != ns.cookies[j])
  }

  /**
   Cookies issued from one counter are distinct: assigning a cookie keeps the
   namespace's cookies unique, as long as the 64-bit counter does not wrap.
   */
  lemma GenCookieKeepsUnique(ns: Namespace, i: nat)
    requires i < |ns.cookies|
    requires UniqueCookies(ns)
    requires ns.counter < U64_MAX
    ensures UniqueCookies(GenCookieFor(ns, i).1)
    ensures forall j :: 0 <= j < |ns.cookies| && j != i ==> GenCookieFor(ns, i).0 != ns.cookies[j]
  {
  }

  /** `sock_gen_cookie` on the sockets at `idx` of a namespace, one after another. */
  function GenCookiesFor(ns: Namespace, idx: seq<nat>): (r: Namespace)
    requires forall k :: 0 <= k < |idx| ==> idx[k] < |ns.cookies|
    ensures |r.cookies| == |ns.cookies|
    ensures forall j :: 0 <= j < |ns.cookies| && ns.cookies[j] != 0 ==> r.cookies[j] == ns.cookies[j]
    ensures forall k :: 0 <= k < |idx| ==> r.cookies[idx[k]] != 0
    ensures forall j :: 0 <= j < |ns.cookies| && j !in idx ==> r.cookies[j] == ns.cookies[j]
    decreases |idx|
  {
    if |idx| == 0 then ns
    else GenCookiesFor(GenCookieFor(ns, idx[0]).1, idx[1..])
  }

  /**
   Any series of cookie requests on a namespace whose cookies are unique
   leaves them unique, as long as the counter does not wrap on the way: no
   two sockets of one namespace ever share a cookie.
   */
  lemma {:induction false} GenCookiesKeepUnique(ns: Namespace, idx: seq<nat>)
    requires forall k :: 0 <= k < |idx| ==> idx[k] < |ns.cookies|
    requires UniqueCookies(ns)
    requires ns.counter + |idx| <= U64_MAX
    ensures UniqueCookies(GenCookiesFor(ns, idx))
    decreases |idx|
  {
    if |idx| > 0 {
      var ns1 := GenCookieFor(ns, idx[0]).1;
      GenCookieKeepsUnique(ns, idx[0]);
      GenCookiesKeepUnique(ns1, idx[1..]);
    }
  }

  /** A namespace whose sockets have no cookie yet satisfies the uniqueness invariant. */
  lemma UnsetNamespaceIsUnique(n: nat)
    ensures UniqueCookies(Namespace(seq(n, _ => 0), 0))
  {
  }

  /** Once the counter has wrapped, the next unset socket receives cookie 1 again. */
  lemma WrappedCounterReissuesOne(st: CookieState)
    requires st.cookie == 0 && st.counter == U64_MAX
    ensures GenCookie(st).res == 1
  {
  }
}

=== FILE: dispatch.dfy ===
/**
 Request routing: the handler lookup (`sock_diag_lock_handler`), the
 per-family command (`__sock_diag_cmd`), the message switch
 (`sock_diag_rcv_msg`) and the destroy gate (`sock_diag_destroy`).

 The bodies of `dump`, `destroy`, `inet_rcv_compat` and `diag_destroy` are
 opaque: dispatch returns which of them it calls, and the caller's result is
 that call's result. `request_module` is an abstract `Loader` step that may
 change the registry before the lookup.
 */
module Dispatch {
  import opened Kernel
  import opened Registry

  // netlink message types (linux/inet_diag.h and linux/sock_diag.h)
  const TCPDIAG_GETSOCK: u16 := 18
  const DCCPDIAG_GETSOCK: u16 := 19
  const SOCK_DIAG_BY_FAMILY: u16 := 20
  const SOCK_DESTROY_BACKPORT: u16 := 21

  /** `sizeof(struct sock_diag_req)`: two `__u8` fields, family and protocol. */
  const SOCK_DIAG_REQ_SIZE: nat := 2

  /**
   The parts of a netlink message the dispatcher reads: `nlmsg_type`, the
   payload length `nlmsg_len(nlh)` and the payload's `sdiag_family`.
   */
  datatype Request = Request(msgType: u16, payloadLen: nat, family: u8)

  /**
   `request_module("net-pf-16-proto-4-type-<family>")`: loading a module may
   run its init, which may register handlers. Its effect is left abstract.
   */
  type Loader = (State, nat) -> State

  /** Which opaque operation a request reaches, or the error it returns itself. */
  datatype Outcome =
    | Dumped(h: Handler)
    | Destroyed(h: Handler)
    | CompatCalled(fn: CompatFn)
    | Failed(errno: int)

  /** A dispatch outcome together with the registry state after any module load. */
  datatype Reply = Reply(outcome: Outcome, after: State)

  predicate IsCompatType(t: u16)
  {
    t == TCPDIAG_GETSOCK || t == DCCPDIAG_GETSOCK
  }

  predicate IsCmdType(t: u16)
  {
    t == SOCK_DIAG_BY_FAMILY || t == SOCK_DESTROY_BACKPORT
  }

  /** The header checks of `__sock_diag_cmd`: payload large enough, family in range. */
  predicate WellFormed(req: Request)
  {
    req.payloadLen >= SOCK_DIAG_REQ_SIZE && req.family < AF_MAX
  }

  /**
   `sock_diag_lock_handler`: a module is requested only when the family's slot
   is empty; the handler returned is whatever the slot holds afterwards.
   */
  function LockHandler(s: State, family: nat, load: Loader): (r: (Option<Handler>, State))
    requires family < AF_MAX
    ensures r.0 == r.1.table[family]
    ensures s.table[family].Some? ==> r == (s.table[family], s)
    ensures s.table[family] == None ==> r.1 == load(s, family)
  {
    var s' := if s.table[family] == None then load(s, family) else s;
    (s'.table[family], s')
  }

  /**
   `__sock_diag_cmd`: a short payload or an out-of-range family is `-EINVAL`
   before any lookup; an empty slot is `-ENOENT`; `SOCK_DIAG_BY_FAMILY` calls the
   handler's `dump`; `SOCK_DESTROY_BACKPORT` calls its `destroy` when it has
   one; anything else is `-EOPNOTSUPP`.
   */
  function DiagCmd(s: State, req: Request, load: Loader): (r: Reply)
    ensures !WellFormed(req) ==> r == Reply(Failed(-EINVAL), s)
    ensures WellFormed(req) ==> r.after == LockHandler(s, req.family, load).1
    ensures r.outcome.Dumped? ==>
              req.msgType == SOCK_DIAG_BY_FAMILY && r.after.table[req.family] == Some(r.outcome.h)
    ensures r.outcome.Destroyed? ==>
              && req.msgType == SOCK_DESTROY_BACKPORT
              && r.after.table[req.family] == Some(r.outcome.h)
              && r.outcome.h.hasDestroy
    ensures WellFormed(req) && r.after.table[req.family] == None ==> r.outcome == Failed(-ENOENT)
    ensures !r.outcome.CompatCalled?
  {
    if req.payloadLen < SOCK_DIAG_REQ_SIZE then Reply(Failed(-EINVAL), s)
    else if req.family >= AF_MAX then Reply(Failed(-EINVAL), s)
    else
      var (hndl, s') := LockHandler(s, req.family, load);
      if hndl == None then Reply(Failed(-ENOENT), s')
      else if req.msgType == SOCK_DIAG_BY_FAMILY then Reply(Dumped(hndl.value), s')
      else if req.msgType == SOCK_DESTROY_BACKPORT && hndl.value.hasDestroy then Reply(Destroyed(hndl.value), s')
      else Reply(Failed(-EOPNOTSUPP), s')
  }

  /**
   The legacy branch of `sock_diag_rcv_msg`: the `AF_INET` module is requested
   when no compat handler is set; then the compat handler is called if present,
   else `-EOPNOTSUPP`.
   */
  function CompatRcv(s: State, load: Loader): (r: Reply)
    ensures s.compat.Some? ==> r == Reply(CompatCalled(s.compat.value), s)
    ensures s.compat == None ==> r.after == load(s, AF_INET)
    ensures r.outcome == Failed(-EOPNOTSUPP) <==> r.after.compat == None
    ensures r.outcome.CompatCalled? <==> r.after.compat.Some?
    ensures r.outcome.CompatCalled? ==> r.after.compat == Some(r.outcome.fn)
  {
    var s' := if s.compat == None then load(s, AF_INET) else s;
    if s'.compat.Some? then Reply(CompatCalled(s'.compat.value), s')
    else Reply(Failed(-EOPNOTSUPP), s')
  }

  /** `sock_diag_rcv_msg`: route one message by its type. */
  function RcvMsg(s: State, req: Request, load: Loader): (r: Reply)
    ensures !IsCompatType(req.msgType) && !IsCmdType(req.msgType) ==> r == Reply(Failed(-EINVAL), s)
    ensures r.outcome.Failed? ==> r.outcome.errno in {-EINVAL, -ENOENT, -EOPNOTSUPP}
    ensures r.after == s || exists f :: r.after == load(s, f)
  {
    if IsCompatType(req.msgType) then CompatRcv(s, load)
    else if IsCmdType(req.msgType) then DiagCmd(s, req, load)
    else Reply(Failed(-EINVAL), s)
  }

  /**
   An unknown message type is `-EINVAL` whatever the registry holds, and no
   module is requested.
   */
  lemma UnknownTypeIgnoresRegistry(s1: State, s2: State, req: Request, load1: Loader, load2: Loader)
    requires !IsCompatType(req.msgType) && !IsCmdType(req.msgType)
    ensures RcvMsg(s1, req, load1).outcome == RcvMsg(s2, req, load2).outcome == Failed(-EINVAL)
    ensures RcvMsg(s1, req, load1).after == s1
  {
  }

  /**
   A family command with a short payload or an out-of-range family is
   `-EINVAL` before any lookup: the outcome does not depend on the registry and
   no module is requested.
   */
  lemma MalformedRejectedBeforeLookup(s1: State, s2: State, req: Request, load1: Loader, load2: Loader)
    requires IsCmdType(req.msgType)
    requires !WellFormed(req)
    ensures RcvMsg(s1, req, load1) == Reply(Failed(-EINVAL), s1)
    ensures RcvMsg(s1, req, load1).outcome == RcvMsg(s2, req, load2).outcome
  {
  }

  /**
   For a family command, `-EINVAL` is returned exactly when the header checks
   fail: a well-formed request never gets it, whatever the registry holds.
   */
  lemma InvalidIffMalformed(s: State, req: Request, load: Loader)
    requires IsCmdType(req.msgType)
    ensures RcvMsg(s, req, load).outcome == Failed(-EINVAL) <==> !WellFormed(req)
  {
  }

  /** A well-formed family command for a family with no handler, even after the module request, is `-ENOENT`. */
  lemma EmptySlotIsNoEnt(s: State, req: Request, load: Loader)
    requires IsCmdType(req.msgType) && WellFormed(req)
    requires LockHandler(s, req.family, load).0 == None
    ensures RcvMsg(s, req, load).outcome == Failed(-ENOENT)
  {
  }

  /**
   `dump` is reached exactly for a well-formed `SOCK_DIAG_BY_FAMILY` whose
   family has a handler (after the module request), and it is that handler's.
   */
  lemma DumpReachedIff(s: State, req: Request, load: Loader, h: Handler)
    ensures RcvMsg(s, req, load).outcome == Dumped(h) <==>
              && req.msgType == SOCK_DIAG_BY_FAMILY
              && WellFormed(req)
              && LockHandler(s, req.family, load).0 == Some(h)
  {
  }

  /**
   `destroy` is reached exactly for a well-formed `SOCK_DESTROY_BACKPORT` whose
   family has a handler (after the module request) that implements it.
   */
  lemma DestroyReachedIff(s: State, req: Request, load: Loader, h: Handler)
    ensures RcvMsg(s, req, load).outcome == Destroyed(h) <==>
              && req.msgType == SOCK_DESTROY_BACKPORT
              && WellFormed(req)
              && LockHandler(s, req.family, load).0 == Some(h)
              && h.hasDestroy
  {
  }

  /** A destroy request for a handler without `destroy` is `-EOPNOTSUPP`. */
  lemma DestroyUnsupported(s: State, req: Request, load: Loader, h: Handler)
    requires req.msgType == SOCK_DESTROY_BACKPORT && WellFormed(req)
    requires LockHandler(s, req.family, load).0 == Some(h) && !h.hasDestroy
    ensures RcvMsg(s, req, load).outcome == Failed(-EOPNOTSUPP)
  {
  }

  /**
   Both legacy message types reach the compat handler already set without any
   module request; with none set, the `AF_INET` module is requested, and the
   answer is `-EOPNOTSUPP` exactly when the slot is still empty afterwards.
   */
  lemma CompatRouting(s: State, req: Request, load: Loader)
    requires IsCompatType(req.msgType)
    ensures s.compat.Some? ==> RcvMsg(s, req, load) == Reply(CompatCalled(s.compat.value), s)
    ensures s.compat == None ==> RcvMsg(s, req, load).after == load(s, AF_INET)
    ensures RcvMsg(s, req, load).outcome == Failed(-EOPNOTSUPP) <==> RcvMsg(s, req, load).after.compat == None
    ensures RcvMsg(s, req, load).outcome.CompatCalled? ==>
              RcvMsg(s, req, load).after.compat == Some(RcvMsg(s, req, load).outcome.fn)
  {
  }

  /**
   The legacy path never consults the family table or the request's family and
   length: two states whose compat slots agree (after the module request, when
   one is made) give the same outcome for any two legacy requests.
   */
  lemma CompatIgnoresTable(s1: State, s2: State, req1: Request, req2: Request, load1: Loader, load2: Loader)
    requires IsCompatType(req1.msgType) && IsCompatType(req2.msgType)
    requires s1.compat == s2.compat
    requires s1.compat == None ==> load1(s1, AF_INET).compat == load2(s2, AF_INET).compat
    ensures RcvMsg(s1, req1, load1).outcome == RcvMsg(s2, req2, load2).outcome
  {
  }

  /**
   When the registry keeps every handler in its own family's slot, a handler
   reached by dispatch serves the requested family.
   */
  lemma DispatchReachesOwnFamily(s: State, req: Request, load: Loader)
    requires IsCmdType(req.msgType) && WellFormed(req)
    requires SlotsMatchFamilies(LockHandler(s, req.family, load).1)
    ensures var o := RcvMsg(s, req, load).outcome;
            (o.Dumped? || o.Destroyed?) ==> o.h.family == req.family
  {
  }

  /** The protocol of the socket being destroyed: identity and whether `diag_destroy` is non-NULL. */
  datatype Proto = Proto(id: nat, hasDiagDestroy: bool)

  /** The destroy gate either calls the protocol's `diag_destroy(sk, err)` or refuses. */
  datatype GateOutcome = ProtoDestroyed(p: Proto, err: int) | Refused(errno: int)

  /**
   `sock_diag_destroy`: without `CAP_NET_ADMIN` the answer is `-EPERM`, whatever
   the protocol; with it, a protocol lacking `diag_destroy` is `-EOPNOTSUPP`;
   otherwise the protocol's `diag_destroy` is called with the caller's error.
   */
  function SockDiagDestroy(capNetAdmin: bool, p: Proto, err: int): (g: GateOutcome)
    ensures g.ProtoDestroyed? <==> capNetAdmin && p.hasDiagDestroy
    ensures g.ProtoDestroyed? ==> g == ProtoDestroyed(p, err)
    ensures !capNetAdmin ==> g == Refused(-EPERM)
    ensures capNetAdmin && !p.hasDiagDestroy ==> g == Refused(-EOPNOTSUPP)
  {
    if !capNetAdmin then Refused(-EPERM)
    else if !p.hasDiagDestroy then Refused(-EOPNOTSUPP)
    else ProtoDestroyed(p, err)
  }

  /** The privilege check comes first: an unprivileged caller learns nothing about protocol support. */
  lemma PermissionCheckedFirst(p1: Proto, p2: Proto, err1: int, err2: int)
    ensures SockDiagDestroy(false, p1, err1) == SockDiagDestroy(false, p2, err2) == Refused(-EPERM)
  {
  }
}

=== FILE: kernel.dfy ===
/**
 Fixed-width integer types, errno values and the Option wrapper shared by the
 socket-diagnostics model. Kernel integers are modelled as bounded `int`
 subsets; every wrap-around is written out where it happens.
 */
module Kernel {

  const TWO_32: nat := 0x1_0000_0000
  const TWO_64: nat := 0x1_0000_0000_0000_0000

  type u8 = x: int | 0 <= x < 0x100
  type u16 = x: int | 0 <= x < 0x1_0000
  type u32 = x: int | 0 <= x < 0x1_0000_0000
  type u64 = x: int | 0 <= x < 0x1_0000_0000_0000_0000

  const U32_MAX: u32 := 0xFFFF_FFFF
  const U64_MAX: u64 := 0xFFFF_FFFF_FFFF_FFFF

  // errno values (asm-generic/errno-base.h and asm-generic/errno.h);
  // the kernel returns them negated.
  const EPERM: int := 1
  const ENOENT: int := 2
  const EBUSY: int := 16
  const EINVAL: int := 22
  const EOPNOTSUPP: int := 95
  const ESTALE: int := 116

  /** A possibly-NULL pointer: `None` is NULL. */
  datatype Option<+T> = None | Some(value: T)
}

=== FILE: registry.dfy ===
/**
 The handler registry: a table of `AF_MAX` optional per-family handlers
 (`sock_diag_handlers`) and the single legacy compatibility handler
 (`inet_rcv_compat`), with their register and unregister operations. The
 table mutex is not modelled: each operation is one atomic step.
 */
module Registry {
  import opened Kernel

  /** Number of address families (`AF_MAX` in linux/socket.h of this kernel). */
  const AF_MAX: nat := 40
  /** `AF_INET`, the family whose module is requested for the legacy message types. */
  const AF_INET: nat := 2

  /**
   A `struct sock_diag_handler`: its identity (the pointer), the family it
   serves, and whether its `destroy` operation is non-NULL. `dump` is always
   present; its behaviour is opaque.
   */
  datatype Handler = Handler(id: nat, family: u8, hasDestroy: bool)

  /** The identity of an `inet_rcv_compat` function pointer; its behaviour is opaque. */
  datatype CompatFn = CompatFn(id: nat)

  /** `sock_diag_handlers[AF_MAX]`. */
  type Table = t: seq<Option<Handler>> | |t| == AF_MAX witness seq(AF_MAX, _ => None)

  /** The registry's shared state: the family table and the compat slot. */
  datatype State = State(table: Table, compat: Option<CompatFn>)

  /** The state at boot: every slot NULL. */
  const Initial: State := State(seq(AF_MAX, _ => None), None)

  /** Every occupied slot holds a handler for that slot's family. */
  ghost predicate SlotsMatchFamilies(s: State)
  {
    forall f :: 0 <= f < AF_MAX && s.table[f].Some? ==> s.table[f].value.family == f
  }

  /** The boot state satisfies the slot invariant: the base case for every later state. */
  lemma InitialSlotsMatchFamilies()
    ensures SlotsMatchFamilies(Initial)
    ensures forall f :: 0 <= f < AF_MAX ==> Initial.table[f] == None
  {
  }

  /** Two tables agree on every slot except `f`. */
  ghost predicate SameExcept(t: Table, t': Table, f: int)
  {
    forall g :: 0 <= g < AF_MAX && g != f ==> t'[g] == t[g]
  }

  /** What `sock_diag_register` returns, and the state it leaves. */
  datatype Registered = Registered(ret: int, after: State)

  /**
   `sock_diag_register`: an out-of-range family is `-EINVAL` and an occupied
   slot is `-EBUSY`, both without any change; otherwise the handler is stored in
   its family's slot and nothing else changes.
   */
  function Register(s: State, h: Handler): (r: Registered)
    ensures h.family >= AF_MAX ==> r == Registered(-EINVAL, s)
    ensures h.family < AF_MAX && s.table[h.family].Some? ==> r == Registered(-EBUSY, s)
    ensures r.ret == 0 <==> h.family < AF_MAX && s.table[h.family] == None
    ensures r.ret == 0 ==> r.after.table[h.family] == Some(h)
    ensures r.after.compat == s.compat
    ensures SameExcept(s.table, r.after.table, h.family)
  {
    if h.family >= AF_MAX then Registered(-EINVAL, s)
    else if s.table[h.family].Some? then Registered(-EBUSY, s)
    else Registered(0, s.(table := s.table[h.family := Some(h)]))
  }

  /**
   `sock_diag_unregister`: an out-of-range family is ignored; otherwise the
   slot must hold exactly this handler (the `BUG_ON`) and becomes empty,
   nothing else changing.
   */
  function Unregister(s: State, h: Handler): (s': State)
    requires h.family < AF_MAX ==> s.table[h.family] == Some(h)
    ensures h.family >= AF_MAX ==> s' == s
    ensures h.family < AF_MAX ==> s'.table[h.family] == None
    ensures s'.compat == s.compat
    ensures SameExcept(s.table, s'.table, h.family)
  {
    if h.family >= AF_MAX then s
    else s.(table := s.table[h.family := None])
  }

  /** `sock_diag_register_inet_compat`: the compat slot is overwritten, no busy check. */
  function RegisterCompat(s: State, fn: CompatFn): (s': State)
    ensures s'.compat == Some(fn)
    ensures s'.table == s.table
  {
    s.(compat := Some(fn))
  }

  /** `sock_diag_unregister_inet_compat`: the compat slot is cleared, whatever `fn` is. */
  function UnregisterCompat(s: State, fn: CompatFn): (s': State)
    ensures s'.compat == None
    ensures s'.table == s.table
  {
    s.(compat := None)
  }

  /** A successful registration is undone exactly by unregistering the same handler. */
  lemma RegisterThenUnregister(s: State, h: Handler)
    requires Register(s, h).ret == 0
    ensures Unregister(Register(s, h).after, h) == s
  {
  }

  /** Unregistering a registered handler and registering it again restores the state. */
  lemma UnregisterThenRegister(s: State, h: Handler)
    requires h.family < AF_MAX && s.table[h.family] == Some(h)
    ensures Register(Unregister(s, h), h) == Registered(0, s)
  {
  }

  /**
   Registering a second handler for a family that already has one fails with
   `-EBUSY`, and the first handler stays registered.
   */
  lemma SecondRegisterIsBusy(s: State, a: Handler, b: Handler)
    requires Register(s, a).ret == 0
    requires b.family == a.family
    ensures Register(Register(s, a).after, b) == Registered(-EBUSY, Register(s, a).after)
    ensures Register(Register(s, a).after, b).after.table[a.family] == Some(a)
  {
  }

  /** Registration and unregistration keep every handler in its own family's slot. */
  lemma OperationsKeepSlotsMatchFamilies(s: State, h: Handler, fn: CompatFn)
    requires SlotsMatchFamilies(s)
    ensures SlotsMatchFamilies(Register(s, h).after)
    ensures h.family < AF_MAX && s.table[h.family] == Some(h) ==> SlotsMatchFamilies(Unregister(s, h))
    ensures SlotsMatchFamilies(RegisterCompat(s, fn))
    ensures SlotsMatchFamilies(UnregisterCompat(s, fn))
  {
  }

  /** Unregistering the compat handler ignores which handler is named, unlike `Unregister`. */
  lemma UnregisterCompatIgnoresArgument(s: State, fn1: CompatFn, fn2: CompatFn)
    ensures UnregisterCompat(s, fn1) == UnregisterCompat(s, fn2)
  {
  }

  /** The last compat registration wins. */
  lemma LastCompatRegisterWins(s: State, fn1: CompatFn, fn2: CompatFn)
    ensures RegisterCompat(RegisterCompat(s, fn1), fn2) == RegisterCompat(s, fn2)
  {
  }
}
